=== FILE: README.md ===
# Bunch dictionaries, modelled in Dafny

A model of `src/lessly/collect/bunch.py` from py-lessly: a family of `dict`
subclasses.

- `Bunch` reads, writes and deletes items through attribute syntax.
- `BunchBunch` also reads a key with dots, given to `setdotted`, as a path
  through nested `BunchBunch` instances.
- `InfiBunchBunch()` builds a `defaultdict` variant that creates a fresh
  instance of itself for every missing key that is read.
- `Buncher` is a proxy that sends attribute and item access to the object it
  wraps.

A Python value is modelled as `Dicts.Val`. It is either a mapping or an
`Atom`, which stands for a value that is not a dict and has no item
methods (a number, say). A mapping carries its
class (`PlainDict`, `Bunch`, `BunchBunch` or `InfiBunchBunch`) and its entries
as an association list in insertion order. Every operation is a pure
function. It returns the new state, or an `Outcomes.Error` for the Python
exception it raises (`AttributeError`, `KeyError` or `TypeError`).

Modules, following the source:

- `Outcomes`: optional values, results and the exceptions.
- `Dicts`: values, dict primitives, and `c[k]` including `defaultdict`
  auto-creation (lines 108-121).
- `AttrAccess`: `Bunch.__getattr__`, `__setattr__`, `__delattr__` and
  `__contains__` (lines 14-47).
- `Dotted`: `setdotted`, `update`, the constructor and `copy` (lines 59-96).
- `DottedProps`: what those promise.
- `Copies`: `deepcopy` and `todict` (lines 86-105).
- `Proxy`: `Buncher` and `BUNCHER_ATTRS` (lines 125-176).
- `Scenarios`: worked instances on small concrete values.

What the code does, and where it differs from what its documentation suggests:

- **The first write under a prefix wins.** In `setdotted` (lines 74-76) the
  recursive call sits inside the `if`. So a dotted write whose head already
  holds a `BunchBunch` does nothing (`DottedProps.BlockedWrite`).
  `BunchBunch({"a.b": 1}, **{"a.c": 2})` therefore yields `{"a": {"b": 1}}`,
  not the merged `{"a": {"b": 1, "c": 2}}`
  (`Scenarios.SecondWriteUnderPrefixDropped`). The model follows the code.
- **`copy()` is not shallow.** It goes back through the constructor, so every
  nested dict is rebuilt and every key with a dot is split again
  (`DottedProps.CopyClean`, `Scenarios.CopySplitsDottedKey`). As a
  consequence, `deepcopy()` equals `copy()` (`Copies.DeepCopy`).
- **`todict()` is not plain all the way down.** A plain dict value is only
  shallow-copied, so a `BunchBunch` inside it survives
  (`Copies.PlainDictShieldsBunch`). The result is plain at every depth
  exactly when every dict that is only copied holds plain values
  (`Copies.ToDictPlainExactly`), as on anything the constructor built
  (`Copies.ToDictNormal`).
- **Attribute writes do not split paths.** `b.k = v` on a `BunchBunch` stores
  the item `b[k]` as given, without `setdotted` (`AttrAccess.SetAttr`).
- **`del p.k` on a `Buncher` keeps the `KeyError`.** A missing key raises
  `KeyError(k)`, not `AttributeError` (`Proxy.DelAttr`). Only reads convert the
  error.

## Model

| member | source | states |
|---|---|---|
| `Dicts.Subscript` | src/lessly/collect/bunch.py:108-121 | `c[k]` fails exactly when `c` is an atom (`TypeError`) or the key is missing and `c` is not a `defaultdict` (`KeyError(k)`); a present key leaves `c` unchanged; a missing key in an `InfiBunchBunch` is stored as a fresh empty `InfiBunchBunch` and returned, nothing else changing |
| `Dicts.InfiReadNeverFails` | src/lessly/collect/bunch.py:117-121 | reading any chain of keys from a fresh `InfiBunchBunch` never fails, yields an empty `InfiBunchBunch`, and leaves one new level per key |
| `Dicts.ReadChainPure` | src/lessly/collect/bunch.py:108-121 | without a `defaultdict` anywhere, a successful chain of reads leaves the value unchanged |
| `AttrAccess.GetAttr` | src/lessly/collect/bunch.py:21-25 | a name normal lookup finds is served by the object; any other name reads the item, failing with `AttributeError(k)` (never `KeyError`) exactly when the key is missing and the bunch is not a `defaultdict`; a present key leaves the bunch unchanged, and a miss on an `InfiBunchBunch` returns a fresh empty instance and changes no other key |
| `AttrAccess.SetAttr` | src/lessly/collect/bunch.py:27-36 | a name unknown to normal lookup becomes the item `b[k] = v`, class kept, every other key unchanged, keys still unique |
| `AttrAccess.DelAttr` | src/lessly/collect/bunch.py:38-47 | a name unknown to normal lookup removes the item; it fails with `AttributeError(k)` exactly when the key is missing, also on a `defaultdict`; other keys unchanged |
| `AttrAccess.Contains` | src/lessly/collect/bunch.py:14-18 | `k in b` holds exactly when normal lookup finds `k`, the key is present, or `b` is an `InfiBunchBunch`; in the last case the key is present afterwards; no other key changes, and the bunch is unchanged unless a miss on an `InfiBunchBunch` inserts `k` |
| `AttrAccess.SetThenGet` | src/lessly/collect/bunch.py:21-36 | an attribute set on a bunch reads back as the value set |
| `AttrAccess.DelThenGet` | src/lessly/collect/bunch.py:21-47 | after deleting an attribute, reading it is `AttributeError(k)`, or a fresh default on an `InfiBunchBunch` |
| `AttrAccess.SetThenDelRestores` | src/lessly/collect/bunch.py:27-47 | setting a new attribute and deleting it restores the bunch exactly |
| `Dotted.Split` | src/lessly/collect/bunch.py:73 | `key.split('.', 1)` unpacks exactly when the key holds a dot, into a dot-free head and the rest, which joined by a dot give the key back |
| `Dotted.SetDotted` | src/lessly/collect/bunch.py:68-78 | the write touches only the head key: the result's keys are the old keys plus the head, every other key keeps its value, uniqueness is kept, and so is the shape the constructor builds |
| `Dotted.Wrap` | src/lessly/collect/bunch.py:78 | a dict value of any class becomes a `BunchBunch` in the constructor's shape; an atom is stored as it is |
| `Dotted.Fill` | src/lessly/collect/bunch.py:64-66 | the constructor's loop keeps every key already present, keeps uniqueness, and keeps the constructor's shape |
| `Dotted.Update` | src/lessly/collect/bunch.py:80-84 | `update` adds exactly the heads of its keys to the receiver's keys and keeps uniqueness and the constructor's shape |
| `Dotted.UpdateWith` | src/lessly/collect/bunch.py:80-84 | `update(__d, **kv)` adds the heads of both argument lists' keys |
| `Dotted.Construct` | src/lessly/collect/bunch.py:64-66 | `BunchBunch(__d, **kv)` has exactly the heads of the argument keys as keys, and every key at every depth is dot-free and unique, every nested dict a `BunchBunch` |
| `Dotted.Copy` | src/lessly/collect/bunch.py:95-96 | `copy()` is in the constructor's shape and its keys are the heads of the original keys |
| `DottedProps.SplitJoin` | src/lessly/collect/bunch.py:73 | splitting `h + "." + rest` with a dot-free `h` gives back `h` and `rest` |
| `DottedProps.PlainKeyWrite` | src/lessly/collect/bunch.py:77-78 | a key without a dot is set to the value, or to a `BunchBunch` built from a dict value; all other keys are unchanged |
| `DottedProps.FillIsUpdate` | src/lessly/collect/bunch.py:64-66 | the constructor's loop is `update` over the remaining entries |
| `DottedProps.WrapIsConstruct` | src/lessly/collect/bunch.py:78 | a dict value is stored as `BunchBunch(value)`, the constructor applied to its entries |
| `DottedProps.UpdateAppend` | src/lessly/collect/bunch.py:80-84 | `update` is a left fold of `setdotted`: two updates in turn are one update with the concatenated pairs |
| `DottedProps.UpdateWithIsFold` | src/lessly/collect/bunch.py:80-84 | `update(__d, **kv)` is `setdotted` over the pairs of `__d`, then the keyword pairs |
| `DottedProps.BlockedWrite` | src/lessly/collect/bunch.py:74-76 | when the head already holds a `BunchBunch`, `setdotted("h.rest", v)` leaves the whole structure unchanged |
| `DottedProps.FreshWrite` | src/lessly/collect/bunch.py:73-76 | when the head holds anything else, the prior value is discarded, replaced by a new `BunchBunch` holding only the rest of the path; other keys unchanged |
| `DottedProps.SingleEntry` | src/lessly/collect/bunch.py:75-76 | a write into the fresh `BunchBunch` leaves exactly one entry |
| `DottedProps.SetDottedIdempotent` | src/lessly/collect/bunch.py:72-78 | `setdotted` twice with the same arguments is `setdotted` once |
| `DottedProps.LaterWriteDropped` | src/lessly/collect/bunch.py:74-76 | after `setdotted("h.a", v)` on a fresh head, any later `setdotted("h.b", w)` is dropped |
| `DottedProps.WriteThenFind` | src/lessly/collect/bunch.py:72-78 | a write that is not blocked can be read back along its dotted path, and every level on the path is a `BunchBunch` |
| `DottedProps.UpdateFrame` | src/lessly/collect/bunch.py:80-84 | a key no pair lands on keeps its value through `update` |
| `DottedProps.UpdateReadBack` | src/lessly/collect/bunch.py:80-84 | after `update`, a pair without a dot reads back as its value, a dict rebuilt as a `BunchBunch`, unless a later pair lands on the same key |
| `DottedProps.CopyClean` | src/lessly/collect/bunch.py:95-96 | when no key at any depth holds a dot, `copy()` has the same entries in the same order, every nested dict rebuilt as a `BunchBunch`, equal to the original as a dict |
| `DottedProps.ShapeRebunch` | src/lessly/collect/bunch.py:95-96 | rebuilding dicts as `BunchBunch` keeps their content |
| `DottedProps.NormalRebunch` | src/lessly/collect/bunch.py:64-78 | what the constructor builds is dot-free at every depth and is unchanged by rebuilding |
| `DottedProps.CopyOfNormal` | src/lessly/collect/bunch.py:95-96 | `copy()` of anything the constructor built is that same mapping |
| `DottedProps.CopyIdempotent` | src/lessly/collect/bunch.py:95-96 | copying a copy gives the copy |
| `Copies.DeepValueIdentity` | src/lessly/collect/bunch.py:86-93 | on anything the constructor built, the deep copy of a value is that value |
| `Copies.DeepCopy` | src/lessly/collect/bunch.py:86-93 | `deepcopy()` equals `copy()` |
| `Copies.PlainValue` | src/lessly/collect/bunch.py:100-104 | the `todict` replacement of a value is an atom kept as it is, or a plain dict with the same keys in the same order; a `BunchBunch`'s entries are converted in turn, any other dict keeps its very entries |
| `Copies.ToDict` | src/lessly/collect/bunch.py:98-105 | `todict()` has the same keys in the same order, no top-level value a `Bunch` of any class, atoms unchanged, plain dict values shallow-copied, `BunchBunch` values converted in turn |
| `Copies.PlainValueShape` | src/lessly/collect/bunch.py:98-105 | the conversion keeps the content |
| `Copies.ToDictSameContent` | src/lessly/collect/bunch.py:98-105 | `todict()` is equal to the receiver as a dict |
| `Copies.ToDictNormal` | src/lessly/collect/bunch.py:98-105 | on anything the constructor built, `todict()` is a plain dict at every depth |
| `Copies.PlainValueExactly` | src/lessly/collect/bunch.py:98-105 | the conversion of a value is plain at every depth exactly when every dict reached below a non-`BunchBunch` dict is already plain |
| `Copies.ToDictPlainExactly` | src/lessly/collect/bunch.py:98-105 | `todict()` is plain at every depth exactly when every dict the conversion only copies holds plain values |
| `Copies.PlainDictShieldsBunch` | src/lessly/collect/bunch.py:103-104 | a `BunchBunch` inside a plain dict value survives `todict()` |
| `Proxy.Target` | src/lessly/collect/bunch.py:141-144 | `self.obj` fails with `AttributeError` exactly when the wrapped object was deleted |
| `Proxy.GetAttr` | src/lessly/collect/bunch.py:140-152 | a reserved name other than `obj` and `__del__` is served by the proxy; `__del__`, reserved but defined nowhere, fails with `AttributeError`; `obj` is the wrapped object; a name the target's own lookup finds is the target's attribute; any other name reads `obj[k]`, failing with `AttributeError(k)` exactly when the key is missing and the target is not a `defaultdict` (`TypeError` on an atom); a present key leaves the proxy unchanged, and a `defaultdict` miss adds only `k` with a fresh empty instance |
| `Proxy.SetAttr` | src/lessly/collect/bunch.py:154-158 | `obj` rebinds the target; any other name, reserved or not, sets `obj[k]` and nothing else, failing exactly when there is no dict to write to |
| `Proxy.DelAttr` | src/lessly/collect/bunch.py:160-164 | `obj` drops the target; any other name removes `obj[k]`, failing with `KeyError(k)` when the key is missing |
| `Proxy.TargetMethod` | src/lessly/collect/bunch.py:166-170 | an item method is found exactly when the target is a dict, and it is the target's own |
| `Proxy.GetItem` | src/lessly/collect/bunch.py:166-176 | `p[k]` succeeds exactly when the key is present or the target is a `defaultdict`, and otherwise fails with `KeyError(k)`; a present key leaves the proxy unchanged, and a miss adds only `k` with a fresh empty instance, class kept |
| `Proxy.SetItem` | src/lessly/collect/bunch.py:166-176 | `p[k] = v` sets the target's item and nothing else: class kept, other keys unchanged |
| `Proxy.DelItem` | src/lessly/collect/bunch.py:166-176 | `del p[k]` succeeds exactly when the key is present and removes only it, class kept; on a wrapped dict a missing key is `KeyError(k)` |
| `Proxy.ContainsItem` | src/lessly/collect/bunch.py:166-176 | `k in p` fails exactly when there is no dict to ask; on a plain dict it is key membership; on a `Bunch` it holds exactly when the target's lookup finds `k`, the key is present, or the target is an `InfiBunchBunch`; the proxy is unchanged unless a miss on an `InfiBunchBunch` inserts `k`, and no other key changes |
| `Proxy.SetThenContains` | src/lessly/collect/bunch.py:166-176 | an item set through the proxy is then contained in it, and one deleted from a wrapped plain dict is not |
| `Proxy.DelAttrIsDelItem` | src/lessly/collect/bunch.py:160-176 | on a wrapped dict, `del p.k` is `del p[k]`, `KeyError` included |
| `Proxy.SetThenDelItemRestores` | src/lessly/collect/bunch.py:166-176 | setting a new item through the proxy and deleting it gives back the proxy as it was |
| `Proxy.AttrIsItem` | src/lessly/collect/bunch.py:140-176 | on a wrapped dict, attribute writes are item writes, and attribute reads are item reads with `KeyError` turned into `AttributeError` |
| `Proxy.SetThenGet` | src/lessly/collect/bunch.py:140-158 | a name set through the proxy reads back through it |
| `Proxy.DelThenGet` | src/lessly/collect/bunch.py:140-164 | a name deleted through the proxy then reads as `AttributeError(k)`, unless the wrapped mapping is a `defaultdict` |
| `Proxy.ReservedNotForwarded` | src/lessly/collect/bunch.py:125-142 | names of `BUNCHER_ATTRS` other than `obj` are answered alike whatever the proxy wraps, and leave the proxy unchanged |
| `Proxy.ProxyOfBunch` | src/lessly/collect/bunch.py:140-152 | a proxy around a `Bunch` reads non-reserved names as the `Bunch` itself does |
| `Scenarios.ThreeLevels` | src/lessly/collect/bunch.py:72-78 | `setdotted("a.b.c", 5)` nests three levels of `BunchBunch` |
| `Scenarios.TrailingDot` | src/lessly/collect/bunch.py:73-78 | `setdotted("a.", v)` stores `v` under the empty key inside `a` |
| `Scenarios.AtomOverwritten` | src/lessly/collect/bunch.py:74-76 | an atom at the head is replaced by `{b: 1}`, not merged |
| `Scenarios.SecondWriteUnderPrefixDropped` | src/lessly/collect/bunch.py:64-84 | `BunchBunch({"a.b": 1}, **{"a.c": 2})` is `{"a": {"b": 1}}` |
| `Scenarios.DictValueRebuilt` | src/lessly/collect/bunch.py:78 | a dict value's own dotted keys become paths |
| `Scenarios.CopySplitsDottedKey` | src/lessly/collect/bunch.py:95-96 | `copy()` splits a stored key that holds a dot |
| `Scenarios.NestedBunchConverted` | src/lessly/collect/bunch.py:98-105 | a flat `Bunch` inside a `BunchBunch` value comes out of `todict()` as a plain dict |
| `Scenarios.ProxyOfDict` | src/lessly/collect/bunch.py:140-158 | around `{"a": 1}`, `p.a` and `p["a"]` are 1 and `p.a = 2` rewrites the wrapped dict |

## Left out

- `__repr__` (lines 8-12 and 134-138): it depends on Python's `%r` rendering of arbitrary values.
- `DefaultBunch` and `InfiBunch` (lines 50-56), the flat `defaultdict` variants, are not modelled. On them even a `getattr` probe inserts a key. Only `InfiBunchBunch` is modelled. `DefaultBunchBunch` with any other factory is not.
- Names that normal attribute lookup finds (lines 30-31 and 41-42) are a parameter. The model reports them as served by the object and does not follow Python's object machinery further. That includes the fallback to `del self[k]` when `object.__delattr__` fails on a class attribute.
- The `AttributeError` fallback of `Bunch.__setattr__` (lines 35-36) cannot be reached: storing a string key does not fail.
- `Bunch.__contains__` with a non-string key (line 17): keys are strings throughout.
- `AttrAccess.Contains`: the model's `string` stands for a byte string or ASCII text. In Python 2, `hasattr` first encodes a `unicode` name to ASCII. For a non-ASCII `unicode` key, such as one loaded from JSON, that raises, and the bare `except` at line 17 answers `False`. It does so even when the key is present, and an `InfiBunchBunch` gets no new key. That case is not modelled.
- `Proxy.ContainsItem`: on a wrapped `Bunch` it answers as `AttrAccess.Contains`, so the same non-ASCII `unicode` case is not modelled.
- The first `getattr(o, k)` attempt of `Buncher.__getattribute__` (line 146) is modelled by a set of names the target's own lookup finds. What those attributes are is not modelled.
- `Buncher` forwarding of `__hash__`, `__len__`, `__iter__` and the comparisons (lines 172-175): they return hashes, counts, iterators and orderings, which the model has no values for.
- Object identity and aliasing are not modelled. A nested mapping shared by two parents, or by a bunch and its copy, is a value here. So "mutating the copy does not affect the original" has no counterpart.
- Dict iteration order: Python 2 leaves it unspecified. The model iterates in insertion order, and `update` and `copy` depend on that order when keys share a prefix.
- The `items` helper (imported from `collect`, line 1) is not part of this model. `update` takes the pairs of `__d` (none for `None`), then the keyword pairs. The errors of a malformed `__d` are not modelled.
- `Proxy.TargetMethod`: a wrapped string, tuple or list is not modelled. Such a value has `__getitem__`, and a list also has `__setitem__` and `__delitem__`. So the forwarded call raises `TypeError` (or succeeds on a list), where an atom has no item method.
- `Dotted.UpdateWith`: always takes `__d`. In the source only the constructor defaults it to `None`; `b.update(a=1)` without `__d` raises `TypeError`, which is not modelled.
- Values other than dicts are atoms. A foreign object with its own callable `todict` or `deepcopy` method is not modelled.
- `Dotted.Copy`: states the result's shape and keys; its content is stated by `DottedProps.CopyClean` for inputs whose keys have no dots, and the general content (after re-splitting) only through `Update`.

=== FILE: attr_access.dfy ===
/** Attribute-style access on a `Bunch` and its subclasses: `b.k` reads,
    writes and deletes the item `b[k]` whenever `k` is not found by Python's
    normal attribute lookup. The names normal lookup does find (the dict
    methods, the class's own methods, attributes stored on the instance) are
    a parameter `attrs`; what Python does with those is outside the model
    and is reported as an object-level outcome. */
module AttrAccess {
  import opened Outcomes
  import opened Dicts

  /** An attribute read: an item (with the container after the read, which a
      `defaultdict` may have extended), or a real attribute of the object. */
  datatype Got = FromItem(value: Val, after: Val) | FromObject

  /** An attribute write or delete: applied to the items, or to a real
      attribute of the object. */
  datatype Wrote = ToItem(after: Val) | ToObject

  /** The receiver is an instance of `Bunch` or one of its subclasses. */
  predicate IsBunch(c: Val) {
    c.Dict? && c.kind != PlainDict
  }

  /** `b.k`: `__getattr__` runs only when normal lookup fails, and turns the
      `KeyError` of `b[k]` into `AttributeError(k)`. */
  function GetAttr(c: Val, k: string, attrs: set<string>): (r: Result<Got>)
    requires IsBunch(c)
    ensures k in attrs ==> r == Ok(FromObject)
    ensures k !in attrs ==> (r.Err? <==> k !in Keys(c.items) && !Vivifies(c.kind))
    ensures r.Err? ==> r.error == AttributeError(k)
    ensures r.Ok? && r.value.FromItem? ==>
      r.value.after.Dict? && r.value.after.kind == c.kind &&
      Get(r.value.after.items, k) == Some(r.value.value)
    ensures k !in attrs && k in Keys(c.items) ==> r == Ok(FromItem(Get(c.items, k).value, c))
    ensures r.Ok? && r.value.FromItem? && k !in Keys(c.items) ==> r.value.value == Dict(c.kind, [])
    ensures r.Ok? && r.value.FromItem? ==>
      forall j | j != k :: Get(r.value.after.items, j) == Get(c.items, j)
  {
    if k in attrs then Ok(FromObject)
    else
      match Subscript(c, k)
      case Ok((v, c')) => Ok(FromItem(v, c'))
      case Err(_) => Err(AttributeError(k))
  }

  /** `b.k = v`: a name unknown to normal lookup becomes the item `b[k]`;
      no other key changes. Storing a string key cannot fail, so the
      `AttributeError` fallback of the source is never reached. */
  function SetAttr(c: Val, k: string, v: Val, attrs: set<string>): (r: Wrote)
    requires IsBunch(c)
    ensures r.ToObject? <==> k in attrs
    ensures r.ToItem? ==>
      && r.after.Dict? && r.after.kind == c.kind
      && Get(r.after.items, k) == Some(v)
      && (forall j | j != k :: Get(r.after.items, j) == Get(c.items, j))
      && Keys(r.after.items) == Keys(c.items) + {k}
      && (Unique(c.items) ==> Unique(r.after.items))
  {
    if k in attrs then ToObject
    else ToItem(Dict(c.kind, Put(c.items, k, v)))
  }

  /** `del b.k`: a name unknown to normal lookup removes the item `b[k]`; a
      missing item is `AttributeError(k)`, also in a `defaultdict`, whose
      `__delitem__` never creates a default. */
  function DelAttr(c: Val, k: string, attrs: set<string>): (r: Result<Wrote>)
    requires IsBunch(c)
    ensures r == Ok(ToObject) <==> k in attrs
    ensures r.Err? <==> k !in attrs && k !in Keys(c.items)
    ensures r.Err? ==> r.error == AttributeError(k)
    ensures r.Ok? && r.value.ToItem? ==>
      && r.value.after.Dict? && r.value.after.kind == c.kind
      && Get(r.value.after.items, k) == None
      && (forall j | j != k :: Get(r.value.after.items, j) == Get(c.items, j))
      && Keys(r.value.after.items) == Keys(c.items) - {k}
  {
    if k in attrs then Ok(ToObject)
    else if k in Keys(c.items) then Ok(ToItem(Dict(c.kind, Remove(c.items, k))))
    else Err(AttributeError(k))
  }

  /** `k in b`: `hasattr(b, k) or dict.__contains__(b, k)`. `hasattr` is true
      for every name normal lookup finds, so `"keys" in b` holds for an empty
      `Bunch`; on an `InfiBunchBunch`, `hasattr` reads `b[k]`, which inserts
      a default, so every key is contained and is present afterwards. */
  function Contains(c: Val, k: string, attrs: set<string>): (r: (bool, Val))
    requires IsBunch(c)
    ensures r.0 <==> k in attrs || k in Keys(c.items) || Vivifies(c.kind)
    ensures r.1.Dict? && r.1.kind == c.kind
    ensures !Vivifies(c.kind) || k in attrs || k in Keys(c.items) ==> r.1 == c
    ensures Vivifies(c.kind) && k !in attrs ==>
      Get(r.1.items, k) == Some(Dict(c.kind, [])) || k in Keys(c.items)
    ensures Keys(c.items) <= Keys(r.1.items)
    ensures forall j | j != k :: Get(r.1.items, j) == Get(c.items, j)
  {
    if k in attrs then (true, c)
    else
      match Subscript(c, k)
      case Ok((_, c')) => (true, c')
      case Err(_) => (false, c)
  }

  /** Setting an attribute and reading it back yields the value set. */
  lemma SetThenGet(c: Val, k: string, v: Val, attrs: set<string>)
    requires IsBunch(c) && k !in attrs
    ensures SetAttr(c, k, v, attrs).ToItem?
    ensures var c' := SetAttr(c, k, v, attrs).after;
            IsBunch(c') && GetAttr(c', k, attrs) == Ok(FromItem(v, c'))
  {
  }

  /** Deleting an attribute and reading it back is `AttributeError(k)`,
      unless the bunch is a `defaultdict`, which hands out a fresh default. */
  lemma DelThenGet(c: Val, k: string, attrs: set<string>)
    requires IsBunch(c) && k !in attrs && k in Keys(c.items)
    ensures DelAttr(c, k, attrs).Ok? && DelAttr(c, k, attrs).value.ToItem?
    ensures var c' := DelAttr(c, k, attrs).value.after;
            IsBunch(c') &&
            GetAttr(c', k, attrs) ==
              if Vivifies(c.kind) then
                Ok(FromItem(Dict(c.kind, []), Dict(c.kind, c'.items + [(k, Dict(c.kind, []))])))
              else Err(AttributeError(k))
  {
  }

  /** Setting a new attribute and deleting it again restores the bunch. */
  lemma {:induction false} SetThenDelRestores(c: Val, k: string, v: Val, attrs: set<string>)
    requires IsBunch(c) && k !in attrs && k !in Keys(c.items)
    ensures DelAttr(SetAttr(c, k, v, attrs).after, k, attrs) == Ok(ToItem(c))
  {
    RemoveAfterPut(c.items, k, v);
    RemoveAbsent(c.items, k);
  }
}

=== FILE: copies.dfy ===
/** `BunchBunch.deepcopy` and `BunchBunch.todict` (bunch.py, lines 86-105),
    both built on a copy of the receiver followed by a loop that replaces
    some of the copied values. */
module Copies {
  import opened Dicts
  import opened Dotted
  import opened DottedProps

  /** What the loop of `deepcopy` puts in place of one value `w` of the copy:
      `w.deepcopy()` for a `BunchBunch`, `w.copy()` for any other dict, `w`
      itself otherwise. The values of a copy are always in the shape the
      constructor builds, so `w.deepcopy()` starts from a copy of `w` that is
      `w` again, and the recursion follows the structure of `w`. */
  function DeepValue(w: Val): (r: Val)
    requires Normal(w)
    decreases w
  {
    match w
    case Atom(_) => w
    case Dict(k, e) =>
      if IsDotted(k) then
        var c := Copy(e);
        assert c == e by {
          CopyOfNormal(e);
        }
        assert forall i | 0 <= i < |c| :: c[i] in e;
        var r := seq(|c|, i requires 0 <= i < |c| => (c[i].0, DeepValue(c[i].1)));
        Dict(BunchBunch, r)
      else Dict(PlainDict, e)
  }

  /** On a value in the shape the constructor builds, the deep copy is the
      value itself. */
  lemma {:induction false} DeepValueIdentity(w: Val)
    requires Normal(w)
    ensures DeepValue(w) == w
    decreases w
  {
    match w
    case Atom(_) =>
    case Dict(k, e) =>
      CopyOfNormal(e);
      forall e' | e' in e
        ensures DeepValue(e'.1) == e'.1
      {
        DeepValueIdentity(e'.1);
      }
      var r := DeepValue(w).items;
      assert |r| == |e|;
      forall i | 0 <= i < |e|
        ensures r[i] == e[i]
      {
        assert e[i] in e;
      }
  }

  /** `self.deepcopy()`: a copy whose values are replaced one by one. Because
      `copy()` already rebuilds every nested dict through `setdotted`, the
      result is exactly `copy()`: the loop finds nothing left to duplicate. */
  function DeepCopy(s: Items): (r: Items)
    ensures r == Copy(s)
  {
    var c := Copy(s);
    assert forall i | 0 <= i < |c| :: c[i] in c;
    var r := seq(|c|, i requires 0 <= i < |c| => (c[i].0, DeepValue(c[i].1)));
    assert r == c by {
      forall i | 0 <= i < |c|
        ensures r[i] == c[i]
      {
        DeepValueIdentity(c[i].1);
      }
    }
    r
  }

  /** What `todict` makes of one value `v`: `v.todict()` for a `BunchBunch`
      (a plain dict whose values are converted in turn), `v.copy()` for any
      other dict (a plain dict with the same entries, not converted further),
      and `v` itself for anything else. */
  function PlainValue(v: Val): (r: Val)
    ensures v.Atom? ==> r == v
    ensures v.Dict? ==> r.Dict? && r.kind == PlainDict && |r.items| == |v.items|
    ensures v.Dict? ==> forall i | 0 <= i < |v.items| :: r.items[i].0 == v.items[i].0
    ensures v.Dict? && !IsDotted(v.kind) ==> r.items == v.items
    ensures v.Dict? && IsDotted(v.kind) ==>
      forall i | 0 <= i < |v.items| :: r.items[i].1 == PlainValue(v.items[i].1)
    decreases v
  {
    match v
    case Atom(_) => v
    case Dict(k, s) =>
      if IsDotted(k) then
        Dict(PlainDict, seq(|s|, i requires 0 <= i < |s| => (s[i].0, PlainValue(s[i].1))))
      else Dict(PlainDict, s)
  }

  /** `self.todict()`: a plain dict with the same keys in the same order, in
      which no value is a `Bunch` of any kind and every atom is the same. */
  function ToDict(s: Items): (r: Items)
    ensures |r| == |s|
    ensures forall i | 0 <= i < |s| :: r[i].0 == s[i].0
    ensures forall i | 0 <= i < |s| :: r[i].1.Atom? || r[i].1.kind == PlainDict
    ensures forall i | 0 <= i < |s| :: s[i].1.Atom? ==> r[i].1 == s[i].1
    ensures forall i | 0 <= i < |s| :: s[i].1.Dict? && !IsDotted(s[i].1.kind) ==>
      r[i].1.Dict? && r[i].1.items == s[i].1.items
    ensures forall i | 0 <= i < |s| :: s[i].1.Dict? && IsDotted(s[i].1.kind) ==>
      r[i].1 == PlainValue(s[i].1)
  {
    var r := PlainValue(Dict(BunchBunch, s)).items;
    assert forall i | 0 <= i < |s| :: r[i].1 == PlainValue(s[i].1);
    r
  }

  /** Converting to plain dicts keeps the content. */
  lemma {:induction false} PlainValueShape(v: Val)
    ensures Shape(PlainValue(v)) == Shape(v)
    decreases v
  {
    match v
    case Atom(_) =>
    case Dict(k, s) =>
      if IsDotted(k) {
        forall i | 0 <= i < |s| {
          PlainValueShape(s[i].1);
        }
      }
  }

  /** `todict()` returns a dict equal to the receiver. */
  lemma ToDictSameContent(s: Items)
    ensures SameContent(ToDict(s), s)
  {
    PlainValueShape(Dict(BunchBunch, s));
  }

  /** No `Bunch` of any kind at any depth. */
  predicate AllPlain(v: Val) {
    match v
    case Atom(_) => true
    case Dict(k, s) => k == PlainDict && forall e | e in s :: AllPlain(e.1)
  }

  /** On a mapping in the shape the constructor builds (a copy, say),
      `todict()` is plain all the way down. */
  lemma {:induction false} PlainValueNormal(v: Val)
    requires Normal(v)
    ensures AllPlain(PlainValue(v))
    decreases v
  {
    match v
    case Atom(_) =>
    case Dict(k, s) =>
      forall e | e in s
        ensures AllPlain(PlainValue(e.1))
      {
        PlainValueNormal(e.1);
      }
      var r := PlainValue(v).items;
      forall e | e in r
        ensures AllPlain(e.1)
      {
        var i :| 0 <= i < |r| && r[i] == e;
        assert s[i] in s;
      }
  }

  lemma ToDictNormal(s: Items)
    requires NormalItems(s)
    ensures AllPlain(Dict(PlainDict, ToDict(s)))
  {
    PlainValueNormal(Dict(BunchBunch, s));
  }

  /** The inputs on which `todict()` is plain all the way down: through
      `BunchBunch` levels, which are converted, every other dict reached
      must already hold only plain values, since it is only copied. */
  predicate PlainBelow(v: Val) {
    match v
    case Atom(_) => true
    case Dict(k, s) =>
      forall e | e in s :: if IsDotted(k) then PlainBelow(e.1) else AllPlain(e.1)
  }

  /** The conversion of a value is plain at every depth exactly when the
      value is `PlainBelow`. */
  lemma {:induction false} PlainValueExactly(v: Val)
    ensures AllPlain(PlainValue(v)) <==> PlainBelow(v)
    decreases v
  {
    match v
    case Atom(_) =>
    case Dict(k, s) =>
      if IsDotted(k) {
        var r := PlainValue(v).items;
        forall e | e in s
          ensures AllPlain(PlainValue(e.1)) <==> PlainBelow(e.1)
        {
          PlainValueExactly(e.1);
        }
        if PlainBelow(v) {
          forall e | e in r
            ensures AllPlain(e.1)
          {
            var i :| 0 <= i < |r| && r[i] == e;
            assert s[i] in s;
          }
        }
        if AllPlain(PlainValue(v)) {
          forall e | e in s
            ensures PlainBelow(e.1)
          {
            var i :| 0 <= i < |s| && s[i] == e;
            assert r[i] in r;
          }
        }
      }
  }

  /** `todict()` is plain all the way down exactly when the receiver is
      `PlainBelow`: a `Bunch` of any class inside a plain dict value
      survives, and nothing else does. */
  lemma ToDictPlainExactly(s: Items)
    ensures AllPlain(Dict(PlainDict, ToDict(s))) <==> PlainBelow(Dict(BunchBunch, s))
  {
    PlainValueExactly(Dict(BunchBunch, s));
  }

  /** A plain dict stored directly (by `b[k] = v` or `b.k = v`, which bypass
      `setdotted`) is only shallow-copied by `todict()`, so a `BunchBunch`
      inside it survives the conversion. */
  lemma PlainDictShieldsBunch()
    ensures var inner := Dict(BunchBunch, []);
            var s := [("a", Dict(PlainDict, [("b", inner)]))];
            ToDict(s) == s && !AllPlain(Dict(PlainDict, ToDict(s)))
  {
    var inner := Dict(BunchBunch, []);
    var s := [("a", Dict(PlainDict, [("b", inner)]))];
    assert ("b", inner) in s[0].1.items;
  }
}

=== FILE: dicts.dfy ===
/** Python values as the bunch classes see them: a value is either a mapping
    of one of the dict classes in play, or an atom (a value that is not a
    dict and has no item methods: a number, say). A mapping is an association list
    in insertion order; `dict.__setitem__` replaces a present key in place
    and appends a new one. */
module Dicts {
  import opened Outcomes

  /** The dict classes whose behaviour differs: a plain `dict`, a `Bunch`
      (attribute access only), a `BunchBunch` (dotted keys), and the
      `DefaultBunchBunch` that `InfiBunchBunch()` builds, which creates a
      fresh instance of itself for every missing key that is read. */
  datatype Kind = PlainDict | Bunch | BunchBunch | InfiBunchBunch

  datatype Val = Atom(n: int) | Dict(kind: Kind, items: Items)

  type Items = seq<(string, Val)>

  /** `isinstance(v, BunchBunch)` for a dict of this kind. */
  predicate IsDotted(k: Kind) {
    k == BunchBunch || k == InfiBunchBunch
  }

  /** Whether reading a missing key inserts a default (a `defaultdict`). */
  predicate Vivifies(k: Kind) {
    k == InfiBunchBunch
  }

  /** `isinstance(v, BunchBunch)` for an optional value, as `self.get(k)` yields. */
  predicate IsDottedVal(o: Option<Val>) {
    o.Some? && o.value.Dict? && IsDotted(o.value.kind)
  }

  function Keys(s: Items): set<string> {
    if s == [] then {} else {s[0].0} + Keys(s[1..])
  }

  /** No key occurs twice: what every Python dict guarantees. */
  predicate Unique(s: Items) {
    s == [] || (s[0].0 !in Keys(s[1..]) && Unique(s[1..]))
  }

  /** `d.get(k)`: the value stored under `k`, if any. */
  function Get(s: Items, k: string): (r: Option<Val>)
    ensures r.Some? <==> k in Keys(s)
    ensures r.Some? ==> (k, r.value) in s
  {
    if s == [] then None
    else if s[0].0 == k then Some(s[0].1)
    else Get(s[1..], k)
  }

  /** `d[k] = v`. */
  function Put(s: Items, k: string, v: Val): (r: Items)
    ensures Get(r, k) == Some(v)
    ensures forall j | j != k :: Get(r, j) == Get(s, j)
    ensures Keys(r) == Keys(s) + {k}
    ensures Unique(s) ==> Unique(r)
    ensures forall e | e in r :: e == (k, v) || e in s
    ensures k !in Keys(s) ==> r == s + [(k, v)]
  {
    if s == [] then [(k, v)]
    else if s[0].0 == k then [(k, v)] + s[1..]
    else [s[0]] + Put(s[1..], k, v)
  }

  /** `del d[k]` once the key is known to be present. */
  function Remove(s: Items, k: string): (r: Items)
    ensures Get(r, k) == None
    ensures forall j | j != k :: Get(r, j) == Get(s, j)
    ensures Keys(r) == Keys(s) - {k}
    ensures Unique(s) ==> Unique(r)
    ensures forall e | e in r :: e in s
  {
    if s == [] then []
    else if s[0].0 == k then Remove(s[1..], k)
    else [s[0]] + Remove(s[1..], k)
  }

  /** Removing a key that is absent changes nothing. */
  lemma {:induction false} RemoveAbsent(s: Items, k: string)
    requires k !in Keys(s)
    ensures Remove(s, k) == s
  {
    if s != [] {
      RemoveAbsent(s[1..], k);
    }
  }

  /** `d[k] = v` followed by `del d[k]` is the same as `del d[k]` alone. */
  lemma {:induction false} RemoveAfterPut(s: Items, k: string, v: Val)
    ensures Remove(Put(s, k, v), k) == Remove(s, k)
  {
    if s != [] && s[0].0 != k {
      RemoveAfterPut(s[1..], k, v);
    }
  }

  /** Writing the same key twice with the same value is writing it once. */
  lemma {:induction false} PutTwice(s: Items, k: string, v: Val)
    ensures Put(Put(s, k, v), k, v) == Put(s, k, v)
  {
    if s != [] && s[0].0 != k {
      PutTwice(s[1..], k, v);
    }
  }

  /** `c[k]`: the value read and the container afterwards. A missing key is a
      `KeyError`, except in a `defaultdict`, whose `__missing__` stores and
      returns a fresh default (for `InfiBunchBunch`, another empty
      `InfiBunchBunch`). An atom cannot be subscripted. */
  function Subscript(c: Val, k: string): (r: Result<(Val, Val)>)
    ensures r.Err? <==> c.Atom? || (k !in Keys(c.items) && !Vivifies(c.kind))
    ensures r.Err? && c.Atom? ==> r.error == TypeError
    ensures r.Err? && c.Dict? ==> r.error == KeyError(k)
    ensures r.Ok? ==> r.value.1.Dict? && r.value.1.kind == c.kind
    ensures r.Ok? ==> Get(r.value.1.items, k) == Some(r.value.0)
    ensures r.Ok? && k in Keys(c.items) ==> r.value.1 == c
    ensures r.Ok? && k !in Keys(c.items) ==>
      r.value.0 == Dict(c.kind, []) && Keys(r.value.1.items) == Keys(c.items) + {k}
    ensures r.Ok? ==> forall j | j != k :: Get(r.value.1.items, j) == Get(c.items, j)
  {
    match c
    case Atom(_) => Err(TypeError)
    case Dict(kind, s) =>
      match Get(s, k)
      case Some(v) => Ok((v, c))
      case None =>
        if Vivifies(kind) then Ok((Dict(kind, []), Dict(kind, Put(s, k, Dict(kind, [])))))
        else Err(KeyError(k))
  }

  /** Reading `c[k1][k2]...[kn]` in one expression. Every container on the
      way is updated in place by Python, so a default inserted deep down is
      visible from `c` afterwards: the result carries the value read and `c`
      as it is after the reads. */
  function ReadChain(c: Val, path: seq<string>): (r: Result<(Val, Val)>)
    decreases |path|
  {
    if path == [] then Ok((c, c))
    else
      match Subscript(c, path[0])
      case Err(e) => Err(e)
      case Ok((child, c')) =>
        match ReadChain(child, path[1..])
        case Err(e) => Err(e)
        case Ok((v, child')) => Ok((v, Dict(c'.kind, Put(c'.items, path[0], child'))))
  }

  /** The empty containers that reading `path` from an empty
      `InfiBunchBunch` leaves behind, one per level. */
  function InfiSpine(path: seq<string>): (r: Val)
    ensures r.Dict? && r.kind == InfiBunchBunch
    ensures path == [] <==> r.items == []
    decreases |path|
  {
    if path == [] then Dict(InfiBunchBunch, [])
    else Dict(InfiBunchBunch, [(path[0], InfiSpine(path[1..]))])
  }

  /** An `InfiBunchBunch` never fails a chain of reads: whatever the path,
      the value read is a fresh empty `InfiBunchBunch`, and the missing
      levels now exist. */
  lemma {:induction false} InfiReadNeverFails(path: seq<string>)
    ensures ReadChain(Dict(InfiBunchBunch, []), path) ==
            Ok((Dict(InfiBunchBunch, []), InfiSpine(path)))
    decreases |path|
  {
    if path != [] {
      var empty := Dict(InfiBunchBunch, []);
      assert Subscript(empty, path[0]) == Ok((empty, Dict(InfiBunchBunch, [(path[0], empty)])));
      InfiReadNeverFails(path[1..]);
      assert Put([(path[0], empty)], path[0], InfiSpine(path[1..]))
          == [(path[0], InfiSpine(path[1..]))];
    }
  }

  /** No `defaultdict` anywhere in `v`. */
  predicate NoDefaults(v: Val) {
    match v
    case Atom(_) => true
    case Dict(k, s) => !Vivifies(k) && forall e | e in s :: NoDefaults(e.1)
  }

  /** Writing back the value a key already holds changes nothing. */
  lemma {:induction false} PutSame(s: Items, k: string, v: Val)
    requires Get(s, k) == Some(v)
    ensures Put(s, k, v) == s
  {
    if s != [] && s[0].0 != k {
      PutSame(s[1..], k, v);
    }
  }

  /** Without a `defaultdict` anywhere, reads do not write: a chain of reads
      that succeeds leaves the container as it was. */
  lemma {:induction false} ReadChainPure(c: Val, path: seq<string>)
    requires NoDefaults(c)
    ensures ReadChain(c, path).Ok? ==> ReadChain(c, path).value.1 == c
    decreases |path|
  {
    if path != [] && c.Dict? {
      match Get(c.items, path[0])
      case None =>
      case Some(child) =>
        ReadChainPure(child, path[1..]);
        if ReadChain(child, path[1..]).Ok? {
          PutSame(c.items, path[0], child);
        }
    }
  }
}

=== FILE: dotted.dfy ===
/** `BunchBunch`: a dict whose writes through `setdotted` read a key with
    dots as a path of nested `BunchBunch` instances. Every operation here
    works on the items of the receiving `BunchBunch` (or `InfiBunchBunch`,
    which inherits all of them unchanged). */
module Dotted {
  import opened Outcomes
  import opened Dicts

  /** `key.split('.', 1)` unpacked into two names: the text before the first
      dot and the text after it. A key without a dot splits into one piece,
      the unpacking raises `ValueError`, and the result is `None`. */
  function Split(key: string): (r: Option<(string, string)>)
    ensures r.None? <==> '.' !in key
    ensures r.Some? ==> key == r.value.0 + "." + r.value.1 && '.' !in r.value.0
    decreases |key|
  {
    if key == [] then None
    else if key[0] == '.' then Some(([], key[1..]))
    else
      match Split(key[1..])
      case None => None
      case Some((h, rest)) => Some(([key[0]] + h, rest))
  }

  /** The top-level key a dotted write lands on. */
  function Head(key: string): string {
    match Split(key)
    case None => key
    case Some((h, _)) => h
  }

  /** The shape `setdotted` and the constructor build: keys unique and free
      of dots at every depth, and every nested mapping a plain `BunchBunch`. */
  predicate Normal(v: Val) {
    match v
    case Atom(_) => true
    case Dict(k, s) =>
      k == BunchBunch && Unique(s) && forall e | e in s :: '.' !in e.0 && Normal(e.1)
  }

  predicate NormalItems(s: Items) {
    Normal(Dict(BunchBunch, s))
  }

  /** `self.setdotted(key, value)` (bunch.py, lines 68-78). A key without a
      dot stores the value, a dict value wrapped as a new `BunchBunch`.
      A dotted key whose head does not hold a `BunchBunch` replaces that slot
      with a new `BunchBunch` and writes the rest of the key into it; when
      the head already holds a `BunchBunch`, the recursive write sits inside
      the `if` in the source, so nothing happens at all. */
  function SetDotted(d: Items, key: string, v: Val): (r: Items)
    ensures Keys(r) == Keys(d) + {Head(key)}
    ensures forall j | j != Head(key) :: Get(r, j) == Get(d, j)
    ensures Unique(d) ==> Unique(r)
    ensures NormalItems(d) ==> NormalItems(r)
    decreases v, 2, |key|
  {
    match Split(key)
    case None => Put(d, key, Wrap(v))
    case Some((h, rest)) =>
      if IsDottedVal(Get(d, h)) then d
      else Put(d, h, Dict(BunchBunch, SetDotted([], rest, v)))
  }

  /** `BunchBunch(value) if isinstance(value, dict) else value`: a dict of
      any class is rebuilt as a new `BunchBunch` by writing its entries one
      by one through `setdotted`. */
  function Wrap(v: Val): (r: Val)
    ensures v.Atom? ==> r == v
    ensures v.Dict? ==> r.Dict? && r.kind == BunchBunch
    ensures Normal(r)
    decreases v, 1
  {
    match v
    case Atom(_) => v
    case Dict(_, _) => Dict(BunchBunch, Fill([], v, 0))
  }

  /** The constructor's loop over the entries of `src` from index `i` on,
      written against the enclosing value so that termination follows the
      structure of the value being wrapped. */
  function Fill(acc: Items, src: Val, i: nat): (r: Items)
    requires src.Dict? && i <= |src.items|
    ensures Keys(acc) <= Keys(r)
    ensures Unique(acc) ==> Unique(r)
    ensures NormalItems(acc) ==> NormalItems(r)
    decreases src, 0, |src.items| - i
  {
    if i == |src.items| then acc
    else Fill(SetDotted(acc, src.items[i].0, src.items[i].1), src, i + 1)
  }

  /** The top-level keys a sequence of dotted writes lands on. */
  function Heads(ps: Items): set<string> {
    if ps == [] then {} else {Head(ps[0].0)} + Heads(ps[1..])
  }

  /** The loop of `update` (lines 80-84): `setdotted` for each pair in turn. */
  function Update(d: Items, ps: Items): (r: Items)
    ensures Keys(r) == Keys(d) + Heads(ps)
    ensures Unique(d) ==> Unique(r)
    ensures NormalItems(d) ==> NormalItems(r)
    decreases |ps|
  {
    if ps == [] then d
    else Update(SetDotted(d, ps[0].0, ps[0].1), ps[1..])
  }

  /** `self.update(__d, **kv)`: the pairs of `__d` (none for `None`), then
      the keyword pairs; the method returns `self`, whose items are these. */
  function UpdateWith(d: Items, src: Items, kw: Items): (r: Items)
    ensures Keys(r) == Keys(d) + Heads(src) + Heads(kw)
    ensures NormalItems(d) ==> NormalItems(r)
  {
    Update(Update(d, src), kw)
  }

  /** `BunchBunch(__d, **kv)` (lines 64-66): an empty dict updated from the
      arguments. */
  function Construct(src: Items, kw: Items): (r: Items)
    ensures NormalItems(r)
    ensures Keys(r) == Heads(src) + Heads(kw)
  {
    UpdateWith([], src, kw)
  }

  /** `self.copy()` (lines 95-96): `BunchBunch(dict.copy(self))`, so every
      entry goes through `setdotted` again. */
  function Copy(s: Items): (r: Items)
    ensures NormalItems(r)
    ensures Keys(r) == Heads(s)
  {
    Construct(s, [])
  }
}

=== FILE: dotted_props.dfy ===
/** What `setdotted`, `update`, the constructor and `copy` of `BunchBunch`
    promise, and where they surprise. */
module DottedProps {
  import opened Outcomes
  import opened Dicts
  import opened Dotted

  /** Joining a dot-free head and a rest with a dot is undone by `Split`. */
  lemma {:induction false} SplitJoin(h: string, rest: string)
    requires '.' !in h
    ensures Split(h + "." + rest) == Some((h, rest))
    decreases |h|
  {
    if h == [] {
      assert h + "." + rest == ['.'] + rest;
    } else {
      var key := h + "." + rest;
      assert key[0] == h[0] != '.';
      assert key[1..] == h[1..] + "." + rest;
      SplitJoin(h[1..], rest);
      assert [h[0]] + h[1..] == h;
    }
  }

  /** A key without a dot stores the value under exactly that key, a dict
      value rebuilt as a `BunchBunch`; every other key keeps its value. */
  lemma PlainKeyWrite(d: Items, key: string, v: Val)
    requires '.' !in key
    ensures Get(SetDotted(d, key, v), key) == Some(Wrap(v))
    ensures forall j | j != key :: Get(SetDotted(d, key, v), j) == Get(d, j)
    ensures v.Atom? ==> Get(SetDotted(d, key, v), key) == Some(v)
  {
  }

  /** The constructor's loop from index `i` is `update` over the remaining
      entries. */
  lemma {:induction false} FillIsUpdate(acc: Items, src: Val, i: nat)
    requires src.Dict? && i <= |src.items|
    ensures Fill(acc, src, i) == Update(acc, src.items[i..])
    decreases |src.items| - i
  {
    if i < |src.items| {
      var ps := src.items[i..];
      assert ps[0] == src.items[i] && ps[1..] == src.items[i + 1..];
      FillIsUpdate(SetDotted(acc, src.items[i].0, src.items[i].1), src, i + 1);
    }
  }

  /** A dict value is stored as `BunchBunch(value)`: the constructor applied
      to the dict's own entries, which re-interprets their keys. */
  lemma WrapIsConstruct(v: Val)
    requires v.Dict?
    ensures Wrap(v) == Dict(BunchBunch, Construct(v.items, []))
  {
    FillIsUpdate([], v, 0);
    assert v.items[0..] == v.items;
  }

  /** `update` is a left fold: updating with two lists in turn is updating
      with their concatenation. */
  lemma {:induction false} UpdateAppend(d: Items, ps: Items, qs: Items)
    ensures Update(d, ps + qs) == Update(Update(d, ps), qs)
    decreases |ps|
  {
    if ps == [] {
      assert ps + qs == qs;
    } else {
      var all := ps + qs;
      assert all[0] == ps[0] && all[1..] == ps[1..] + qs;
      var d' := SetDotted(d, ps[0].0, ps[0].1);
      UpdateCons(d, all);
      UpdateCons(d, ps);
      UpdateAppend(d', ps[1..], qs);
    }
  }

  lemma UpdateCons(d: Items, ps: Items)
    requires ps != []
    ensures Update(d, ps) == Update(SetDotted(d, ps[0].0, ps[0].1), ps[1..])
  {
  }

  /** `update(__d, **kv)` is `setdotted` over the pairs of `__d` followed by
      the keyword pairs. */
  lemma UpdateWithIsFold(d: Items, src: Items, kw: Items)
    ensures UpdateWith(d, src, kw) == Update(d, src + kw)
  {
    UpdateAppend(d, src, kw);
  }

  /** When the head of a dotted key already holds a `BunchBunch` (or an
      `InfiBunchBunch`), the write does nothing: the first write under a
      prefix wins. */
  lemma BlockedWrite(d: Items, h: string, rest: string, v: Val)
    requires '.' !in h
    requires IsDottedVal(Get(d, h))
    ensures SetDotted(d, h + "." + rest, v) == d
  {
    SplitJoin(h, rest);
  }

  /** When the head of a dotted key holds anything but a `BunchBunch`
      (nothing, an atom, a plain dict, a flat `Bunch`), that value is
      discarded and replaced by a new `BunchBunch` holding only the rest of
      the path; every other key keeps its value. */
  lemma FreshWrite(d: Items, h: string, rest: string, v: Val)
    requires '.' !in h
    requires !IsDottedVal(Get(d, h))
    ensures Get(SetDotted(d, h + "." + rest, v), h) ==
            Some(Dict(BunchBunch, SetDotted([], rest, v)))
    ensures Keys(SetDotted([], rest, v)) == {Head(rest)}
    ensures forall j | j != h :: Get(SetDotted(d, h + "." + rest, v), j) == Get(d, j)
  {
    SplitJoin(h, rest);
  }

  /** A write into an empty `BunchBunch` leaves exactly one entry. */
  lemma SingleEntry(key: string, v: Val)
    ensures |SetDotted([], key, v)| == 1
  {
  }

  /** `setdotted` is idempotent. */
  lemma SetDottedIdempotent(d: Items, key: string, v: Val)
    ensures SetDotted(SetDotted(d, key, v), key, v) == SetDotted(d, key, v)
  {
    match Split(key)
    case None =>
      PutTwice(d, key, Wrap(v));
    case Some((h, rest)) =>
  }

  /** After `setdotted("h.a", v)` on a fresh head, a later `setdotted("h.b", w)`
      is dropped, whatever `a`, `b` and `w` are. */
  lemma LaterWriteDropped(d: Items, h: string, a: string, b: string, v: Val, w: Val)
    requires '.' !in h
    requires !IsDottedVal(Get(d, h))
    ensures SetDotted(SetDotted(d, h + "." + a, v), h + "." + b, w) == SetDotted(d, h + "." + a, v)
  {
    FreshWrite(d, h, a, v);
    BlockedWrite(SetDotted(d, h + "." + a, v), h, b, w);
  }

  /** Reading a dotted key as `d[k1][k2]...[kn]`, without creating anything. */
  function Find(s: Items, key: string): Option<Val>
    decreases |key|
  {
    match Split(key)
    case None => Get(s, key)
    case Some((h, rest)) =>
      match Get(s, h)
      case Some(Dict(_, t)) => Find(t, rest)
      case _ => None
  }

  /** Every level a dotted key passes through is a `BunchBunch`. */
  predicate BunchPath(s: Items, key: string)
    decreases |key|
  {
    match Split(key)
    case None => true
    case Some((h, rest)) =>
      var g := Get(s, h);
      g.Some? && g.value.Dict? && g.value.kind == BunchBunch && BunchPath(g.value.items, rest)
  }

  /** A write that is not blocked can be read back along its path, and every
      level it passes through is a `BunchBunch`. */
  lemma {:induction false} WriteThenFind(d: Items, key: string, v: Val)
    requires Split(key).Some? ==> !IsDottedVal(Get(d, Head(key)))
    ensures Find(SetDotted(d, key, v), key) == Some(Wrap(v))
    ensures BunchPath(SetDotted(d, key, v), key)
    decreases |key|
  {
    match Split(key)
    case None =>
    case Some((h, rest)) =>
      WriteThenFind([], rest, v);
  }

  /** A key that none of the pairs lands on keeps its value through
      `update`. */
  lemma {:induction false} UpdateFrame(d: Items, ps: Items, k: string)
    requires forall j | 0 <= j < |ps| :: Head(ps[j].0) != k
    ensures Get(Update(d, ps), k) == Get(d, k)
    decreases |ps|
  {
    if ps != [] {
      assert Head(ps[0].0) != k;
      UpdateFrame(SetDotted(d, ps[0].0, ps[0].1), ps[1..], k);
    }
  }

  /** A pair without a dot is readable after `update`, its dict value
      rebuilt as a `BunchBunch`, unless a later pair lands on the same key. */
  lemma {:induction false} UpdateReadBack(d: Items, ps: Items, i: nat)
    requires i < |ps| && '.' !in ps[i].0
    requires forall j | i < j < |ps| :: Head(ps[j].0) != ps[i].0
    ensures Get(Update(d, ps), ps[i].0) == Some(Wrap(ps[i].1))
    decreases |ps|
  {
    var d' := SetDotted(d, ps[0].0, ps[0].1);
    if i == 0 {
      UpdateFrame(d', ps[1..], ps[0].0);
    } else {
      assert ps[1..][i - 1] == ps[i];
      UpdateReadBack(d', ps[1..], i - 1);
    }
  }

  // ---------------------------------------------------------------------
  // copy()

  /** Keys unique and free of dots at every depth; dict classes arbitrary. */
  predicate Clean(v: Val) {
    match v
    case Atom(_) => true
    case Dict(_, s) => Unique(s) && forall e | e in s :: '.' !in e.0 && Clean(e.1)
  }

  predicate CleanItems(s: Items) {
    Clean(Dict(PlainDict, s))
  }

  /** The same entries in the same order, every dict at every depth now a
      `BunchBunch`. */
  function Rebunch(v: Val): (r: Val)
    decreases v
  {
    match v
    case Atom(_) => v
    case Dict(_, s) =>
      Dict(BunchBunch, seq(|s|, i requires 0 <= i < |s| => (s[i].0, Rebunch(s[i].1))))
  }

  function RebunchItems(s: Items): (r: Items)
    ensures |r| == |s|
  {
    Rebunch(Dict(PlainDict, s)).items
  }

  /** The content of a value as Python's `==` sees it when the order agrees:
      the class of every dict is forgotten. */
  function Shape(v: Val): (r: Val)
    decreases v
  {
    match v
    case Atom(_) => v
    case Dict(_, s) =>
      Dict(PlainDict, seq(|s|, i requires 0 <= i < |s| => (s[i].0, Shape(s[i].1))))
  }

  /** Equal as Python dicts: same keys, in the same order, with equal values. */
  predicate SameContent(a: Items, b: Items) {
    Shape(Dict(PlainDict, a)) == Shape(Dict(PlainDict, b))
  }

  lemma {:induction false} UniqueSuffix(s: Items, i: nat)
    requires Unique(s) && i <= |s|
    ensures Unique(s[i..])
    decreases i
  {
    if i > 0 {
      UniqueSuffix(s[1..], i - 1);
      assert s[1..][i - 1..] == s[i..];
    }
  }

  /** On clean input, wrapping a value only changes the class of its dicts. */
  lemma {:induction false} WrapClean(v: Val)
    requires Clean(v)
    ensures Wrap(v) == Rebunch(v)
    decreases v, 1
  {
    match v
    case Atom(_) =>
    case Dict(_, s) =>
      FillClean([], v, 0);
      assert s[0..] == s;
  }

  lemma {:induction false} FillClean(acc: Items, src: Val, i: nat)
    requires src.Dict? && Clean(src) && i <= |src.items|
    requires Keys(acc) !! Keys(src.items[i..])
    ensures Fill(acc, src, i) == acc + RebunchItems(src.items[i..])
    decreases src, 0, |src.items| - i
  {
    var s := src.items;
    var t := s[i..];
    if i == |s| {
      assert RebunchItems(t) == [];
      assert acc + [] == acc;
    } else {
      var (k, w) := s[i];
      assert s[i] in s;
      assert t[0] == s[i] && t[1..] == s[i + 1..];
      UniqueSuffix(s, i);
      WrapClean(w);
      LeafStep(acc, k, w);
      var acc' := acc + [(k, Rebunch(w))];
      KeysAppend(acc, [(k, Rebunch(w))]);
      FillClean(acc', src, i + 1);
      RebunchItemsCons(t);
      assert acc' + RebunchItems(t[1..]) == acc + RebunchItems(t);
    }
  }

  /** A write under a new key without a dot appends one entry. */
  lemma LeafStep(acc: Items, k: string, w: Val)
    requires '.' !in k && k !in Keys(acc)
    ensures SetDotted(acc, k, w) == acc + [(k, Wrap(w))]
  {
  }

  lemma RebunchItemsCons(s: Items)
    requires s != []
    ensures RebunchItems(s) == [(s[0].0, Rebunch(s[0].1))] + RebunchItems(s[1..])
  {
  }

  lemma {:induction false} KeysAppend(a: Items, b: Items)
    ensures Keys(a + b) == Keys(a) + Keys(b)
    decreases |a|
  {
    if a == [] {
      assert a + b == b;
    } else {
      assert (a + b)[0] == a[0] && (a + b)[1..] == a[1..] + b;
      KeysAppend(a[1..], b);
    }
  }

  /** When no key at any depth contains a dot, `copy()` returns the same
      entries in the same order, every nested dict rebuilt as a new
      `BunchBunch`: equal to the original as a Python dict. */
  lemma CopyClean(s: Items)
    requires CleanItems(s)
    ensures Copy(s) == RebunchItems(s)
    ensures SameContent(Copy(s), s)
  {
    FillIsUpdate([], Dict(PlainDict, s), 0);
    assert s[0..] == s;
    FillClean([], Dict(PlainDict, s), 0);
    ShapeRebunch(Dict(PlainDict, s));
  }

  /** Rebuilding dicts as `BunchBunch` keeps their content. */
  lemma {:induction false} ShapeRebunch(v: Val)
    ensures Shape(Rebunch(v)) == Shape(v)
    decreases v
  {
    match v
    case Atom(_) =>
    case Dict(_, s) =>
      forall i | 0 <= i < |s| {
        ShapeRebunch(s[i].1);
      }
  }

  /** What the constructor builds is clean, and rebuilding it changes
      nothing. */
  lemma {:induction false} NormalRebunch(v: Val)
    requires Normal(v)
    ensures Clean(v) && Rebunch(v) == v
    decreases v
  {
    match v
    case Atom(_) =>
    case Dict(_, s) =>
      forall e | e in s
        ensures Clean(e.1) && Rebunch(e.1) == e.1
      {
        NormalRebunch(e.1);
      }
      assert forall i | 0 <= i < |s| :: s[i] in s;
  }

  /** `copy()` of a mapping in the shape `setdotted` builds is the mapping
      itself. */
  lemma CopyOfNormal(s: Items)
    requires NormalItems(s)
    ensures Copy(s) == s
  {
    NormalRebunch(Dict(BunchBunch, s));
    CopyClean(s);
  }

  /** `copy()` is idempotent. */
  lemma CopyIdempotent(s: Items)
    ensures Copy(Copy(s)) == Copy(s)
  {
    CopyOfNormal(Copy(s));
  }
}

=== FILE: outcomes.dfy ===
/** Optional values, the Python exceptions the bunch classes raise, and
    results that carry either a value or one of those exceptions. */
module Outcomes {

  datatype Option<+T> = None | Some(value: T)

  /** The exceptions that reach callers of the bunch classes. */
  datatype Error =
    | AttributeError(name: string)
    | KeyError(key: string)
    | TypeError

  datatype Result<+T> = Ok(value: T) | Err(error: Error)
}

=== FILE: proxy.dfy ===
/** `Buncher` (bunch.py, lines 125-176): a proxy that sends attribute reads,
    writes and deletes, and item access, to the object it wraps. The wrapped
    object is a value of the model; the names Python's own `getattr` finds
    on it (the dict methods, say) are a parameter `targetAttrs`. */
module Proxy {
  import opened Outcomes
  import opened Dicts
  import AttrAccess

  /** `BUNCHER_ATTRS`: the names the proxy serves itself. */
  const BuncherAttrs: set<string> := {
    "__getattribute__", "__setattr__", "__dict__", "_proxy", "__repr__",
    "__delattr__", "obj", "__class__", "__new__", "__del__", "__init__"
  }

  /** The reserved names `object.__getattribute__` finds on a `Buncher`:
      all of `BUNCHER_ATTRS` but `obj`, which depends on the state, and
      `__del__`, which neither `Buncher`, `dict` nor `object` defines. */
  const ProxyOwnAttrs: set<string> := BuncherAttrs - {"obj", "__del__"}

  /** The proxy's only state: the wrapped object, absent after `del p.obj`. */
  datatype Buncher = Buncher(obj: Option<Val>)

  /** What an attribute read on the proxy yields: a value, one of the
      proxy's own attributes, or an attribute of the wrapped object found by
      `getattr` (a dict method, say). */
  datatype Read =
    | Value(v: Val)
    | ProxyAttribute(name: string)
    | TargetAttribute(name: string)

  /** `self.obj` as `__getattribute__` serves it. */
  function Target(b: Buncher): (r: Result<Val>)
    ensures r.Err? <==> b.obj.None?
    ensures r.Err? ==> r.error == AttributeError("obj")
  {
    match b.obj
    case None => Err(AttributeError("obj"))
    case Some(o) => Ok(o)
  }

  /** The proxy wraps a mapping (and not an atom, or nothing). */
  predicate HoldsDict(b: Buncher) {
    b.obj.Some? && b.obj.value.Dict?
  }

  /** `p.k` (lines 140-152). A reserved name is served by the proxy, and
      `__del__`, reserved but defined nowhere, fails. Any other name is
      looked up on the wrapped object, first with `getattr`, then as
      `obj[k]`, a `KeyError` becoming `AttributeError(k)`. Reading may
      extend a wrapped `InfiBunchBunch`, so the proxy afterwards is part of
      the result; nothing else changes. */
  function GetAttr(b: Buncher, k: string, targetAttrs: set<string>): (r: Result<(Read, Buncher)>)
    ensures k in ProxyOwnAttrs ==> r == Ok((ProxyAttribute(k), b))
    ensures k == "__del__" ==> r == Err(AttributeError(k))
    ensures k == "obj" ==>
      (r.Ok? <==> b.obj.Some?) && (r.Ok? ==> r.value == (Value(b.obj.value), b))
    ensures k !in BuncherAttrs && b.obj.None? ==> r == Err(AttributeError("obj"))
    ensures k !in BuncherAttrs && b.obj.Some? && k in targetAttrs ==>
      r == Ok((TargetAttribute(k), b))
    ensures k !in BuncherAttrs && b.obj.Some? && b.obj.value.Atom? && k !in targetAttrs ==>
      r == Err(TypeError)
    ensures k !in BuncherAttrs && HoldsDict(b) && k !in targetAttrs ==>
      (r.Err? <==> k !in Keys(b.obj.value.items) && !Vivifies(b.obj.value.kind))
    ensures k !in BuncherAttrs && r.Err? && HoldsDict(b) ==> r.error == AttributeError(k)
    ensures k !in BuncherAttrs && k !in targetAttrs && HoldsDict(b) && k in Keys(b.obj.value.items)
      ==>
      r == Ok((Value(Get(b.obj.value.items, k).value), b))
    ensures k !in BuncherAttrs && r.Ok? && r.value.0.Value? ==>
      && HoldsDict(b) && HoldsDict(r.value.1)
      && r.value.1.obj.value.kind == b.obj.value.kind
      && Get(r.value.1.obj.value.items, k) == Some(r.value.0.v)
      && (k !in Keys(b.obj.value.items) ==> r.value.0.v == Dict(b.obj.value.kind, []))
      && (forall j | j != k :: Get(r.value.1.obj.value.items, j) == Get(b.obj.value.items, j))
  {
    if k in BuncherAttrs then
      if k == "obj" then
        match Target(b)
        case Err(e) => Err(e)
        case Ok(o) => Ok((Value(o), b))
      else if k == "__del__" then Err(AttributeError(k))
      else Ok((ProxyAttribute(k), b))
    else
      match Target(b)
      case Err(e) => Err(e)
      case Ok(o) =>
        if k in targetAttrs then Ok((TargetAttribute(k), b))
        else
          match Subscript(o, k)
          case Ok((v, o')) => Ok((Value(v), Buncher(Some(o'))))
          case Err(KeyError(_)) => Err(AttributeError(k))
          case Err(e) => Err(e)
  }

  /** `p.k = v` (lines 154-158): `obj` rebinds the wrapped object; every
      other name, reserved or not, becomes `obj[k] = v`. An atom does not
      support item assignment. */
  function SetAttr(b: Buncher, k: string, v: Val): (r: Result<Buncher>)
    ensures k == "obj" ==> r == Ok(Buncher(Some(v)))
    ensures k != "obj" ==> (r.Ok? <==> b.obj.Some? && b.obj.value.Dict?)
    ensures k != "obj" && r.Ok? ==>
      && r.value.obj.Some? && r.value.obj.value.Dict?
      && r.value.obj.value.kind == b.obj.value.kind
      && Get(r.value.obj.value.items, k) == Some(v)
      && forall j | j != k :: Get(r.value.obj.value.items, j) == Get(b.obj.value.items, j)
  {
    if k == "obj" then Ok(Buncher(Some(v)))
    else
      match Target(b)
      case Err(e) => Err(e)
      case Ok(Atom(_)) => Err(TypeError)
      case Ok(Dict(kind, s)) => Ok(Buncher(Some(Dict(kind, Put(s, k, v)))))
  }

  /** `del p.k` (lines 160-164): `obj` drops the wrapped object; every other
      name becomes `del obj[k]`, whose `KeyError` is not converted. */
  function DelAttr(b: Buncher, k: string): (r: Result<Buncher>)
    ensures k == "obj" ==> (r.Ok? <==> b.obj.Some?) && (r.Ok? ==> r.value.obj.None?)
    ensures k != "obj" ==>
      (r.Ok? <==> b.obj.Some? && b.obj.value.Dict? && k in Keys(b.obj.value.items))
    ensures k != "obj" && b.obj.Some? && b.obj.value.Dict? && r.Err? ==> r.error == KeyError(k)
    ensures k != "obj" && r.Ok? ==>
      && r.value.obj.Some? && r.value.obj.value.Dict?
      && Get(r.value.obj.value.items, k) == None
      && forall j | j != k :: Get(r.value.obj.value.items, j) == Get(b.obj.value.items, j)
  {
    if k == "obj" then
      match Target(b)
      case Err(e) => Err(e)
      case Ok(_) => Ok(Buncher(None))
    else
      match Target(b)
      case Err(e) => Err(e)
      case Ok(Atom(_)) => Err(TypeError)
      case Ok(Dict(kind, s)) =>
        if k in Keys(s) then Ok(Buncher(Some(Dict(kind, Remove(s, k)))))
        else Err(KeyError(k))
  }

  /** The wrapped object's method `name`, as `_proxy` looks it up; an atom
      has no item methods. */
  function TargetMethod(b: Buncher, name: string): (r: Result<Val>)
    ensures r.Ok? <==> b.obj.Some? && b.obj.value.Dict?
    ensures r.Ok? ==> r.value == b.obj.value
  {
    match Target(b)
    case Err(e) => Err(e)
    case Ok(Atom(_)) => Err(AttributeError(name))
    case Ok(o) => Ok(o)
  }

  /** `p[k]` (lines 166-176): `obj.__getitem__(k)`, a `KeyError` passed on
      as is. */
  function GetItem(b: Buncher, k: string): (r: Result<(Val, Buncher)>)
    ensures HoldsDict(b) ==> (r.Ok? <==> k in Keys(b.obj.value.items) || Vivifies(b.obj.value.kind))
    ensures HoldsDict(b) && r.Err? ==> r.error == KeyError(k)
    ensures HoldsDict(b) && k in Keys(b.obj.value.items) ==>
      r == Ok((Get(b.obj.value.items, k).value, b))
    ensures r.Ok? ==>
      && HoldsDict(b) && HoldsDict(r.value.1)
      && r.value.1.obj.value.kind == b.obj.value.kind
      && Get(r.value.1.obj.value.items, k) == Some(r.value.0)
      && (k !in Keys(b.obj.value.items) ==> r.value.0 == Dict(b.obj.value.kind, []))
      && (forall j | j != k :: Get(r.value.1.obj.value.items, j) == Get(b.obj.value.items, j))
  {
    match TargetMethod(b, "__getitem__")
    case Err(e) => Err(e)
    case Ok(o) =>
      match Subscript(o, k)
      case Err(e) => Err(e)
      case Ok((v, o')) => Ok((v, Buncher(Some(o'))))
  }

  /** `p[k] = v`: `obj.__setitem__(k, v)`. */
  function SetItem(b: Buncher, k: string, v: Val): (r: Result<Buncher>)
    ensures r.Ok? <==> HoldsDict(b)
    ensures r.Ok? ==>
      && HoldsDict(r.value)
      && r.value.obj.value.kind == b.obj.value.kind
      && Get(r.value.obj.value.items, k) == Some(v)
      && forall j | j != k :: Get(r.value.obj.value.items, j) == Get(b.obj.value.items, j)
  {
    match TargetMethod(b, "__setitem__")
    case Err(e) => Err(e)
    case Ok(o) => Ok(Buncher(Some(Dict(o.kind, Put(o.items, k, v)))))
  }

  /** `del p[k]`: `obj.__delitem__(k)`, a `KeyError` passed on as is. */
  function DelItem(b: Buncher, k: string): (r: Result<Buncher>)
    ensures r.Ok? <==> b.obj.Some? && b.obj.value.Dict? && k in Keys(b.obj.value.items)
    ensures b.obj.Some? && b.obj.value.Dict? && r.Err? ==> r.error == KeyError(k)
    ensures r.Ok? ==>
      && r.value.obj.Some? && r.value.obj.value.Dict?
      && r.value.obj.value.kind == b.obj.value.kind
      && Get(r.value.obj.value.items, k) == None
      && (forall j | j != k :: Get(r.value.obj.value.items, j) == Get(b.obj.value.items, j))
  {
    match TargetMethod(b, "__delitem__")
    case Err(e) => Err(e)
    case Ok(o) =>
      if k in Keys(o.items) then Ok(Buncher(Some(Dict(o.kind, Remove(o.items, k)))))
      else Err(KeyError(k))
  }

  /** `k in p`: the proxied `__contains__` calls `obj.__contains__(k)`. A
      plain dict tests its keys; a `Bunch` answers as `Bunch.__contains__`
      does, which also holds for the names the target's own lookup finds and
      extends an `InfiBunchBunch`; an atom has no `__contains__`. */
  function ContainsItem(b: Buncher, k: string, targetAttrs: set<string>)
    : (r: Result<(bool, Buncher)>)
    ensures r.Ok? <==> b.obj.Some? && b.obj.value.Dict?
    ensures r.Ok? && b.obj.value.kind == PlainDict ==> r.value == (k in Keys(b.obj.value.items), b)
    ensures r.Ok? && AttrAccess.IsBunch(b.obj.value) ==>
      (r.value.0 <==>
         k in targetAttrs || k in Keys(b.obj.value.items) || Vivifies(b.obj.value.kind))
    ensures r.Ok? ==>
      && r.value.1.obj.Some? && r.value.1.obj.value.Dict?
      && r.value.1.obj.value.kind == b.obj.value.kind
      && Keys(b.obj.value.items) <= Keys(r.value.1.obj.value.items)
      && (forall j | j != k :: Get(r.value.1.obj.value.items, j) == Get(b.obj.value.items, j))
    ensures r.Ok? ==>
      (!Vivifies(b.obj.value.kind) || k in targetAttrs || k in Keys(b.obj.value.items)) ==>
      r.value.1 == b
  {
    match TargetMethod(b, "__contains__")
    case Err(e) => Err(e)
    case Ok(o) =>
      if o.kind == PlainDict then Ok((k in Keys(o.items), b))
      else
        var c := AttrAccess.Contains(o, k, targetAttrs);
        Ok((c.0, Buncher(Some(c.1))))
  }

  /** An item set through the proxy is then contained in it, and one deleted
      from a wrapped plain dict is not. */
  lemma SetThenContains(b: Buncher, k: string, v: Val, targetAttrs: set<string>)
    requires b.obj.Some? && b.obj.value.Dict?
    ensures SetItem(b, k, v).Ok?
    ensures var b' := SetItem(b, k, v).value;
            ContainsItem(b', k, targetAttrs) == Ok((true, b'))
    ensures b.obj.value.kind == PlainDict && k in Keys(b.obj.value.items) ==>
      && DelItem(b, k).Ok?
      && ContainsItem(DelItem(b, k).value, k, targetAttrs) == Ok((false, DelItem(b, k).value))
  {
  }

  /** Attribute access and item access through the proxy reach the same
      item of a wrapped dict: writing `p.k` is writing `p[k]`, and reading
      `p.k` reads `p[k]` except that a missing key is an `AttributeError`.
      (On a wrapped atom they fail differently: `TypeError` against
      `AttributeError` for the missing item method.) */
  lemma AttrIsItem(b: Buncher, k: string, v: Val, targetAttrs: set<string>)
    requires k !in BuncherAttrs && k !in targetAttrs
    ensures b.obj.Some? && b.obj.value.Dict? ==> SetAttr(b, k, v) == SetItem(b, k, v)
    ensures b.obj.Some? && b.obj.value.Dict? ==>
      match GetItem(b, k)
      case Ok((x, b')) => GetAttr(b, k, targetAttrs) == Ok((Value(x), b'))
      case Err(_) => GetAttr(b, k, targetAttrs) == Err(AttributeError(k))
  {
  }

  /** Deleting an attribute through the proxy is deleting the item: both
      reach `del obj[k]` on a wrapped dict, `KeyError` included. */
  lemma DelAttrIsDelItem(b: Buncher, k: string)
    requires k != "obj" && b.obj.Some? && b.obj.value.Dict?
    ensures DelAttr(b, k) == DelItem(b, k)
  {
  }

  /** Setting a new item through the proxy and deleting it again gives back
      the wrapped mapping unchanged. */
  lemma {:induction false} SetThenDelItemRestores(b: Buncher, k: string, v: Val)
    requires b.obj.Some? && b.obj.value.Dict? && k !in Keys(b.obj.value.items)
    ensures SetItem(b, k, v).Ok?
    ensures DelItem(SetItem(b, k, v).value, k) == Ok(b)
  {
    var s := b.obj.value.items;
    RemoveAfterPut(s, k, v);
    RemoveAbsent(s, k);
  }

  /** A name set through the proxy reads back through it, and the wrapped
      mapping holds it. */
  lemma SetThenGet(b: Buncher, k: string, v: Val, targetAttrs: set<string>)
    requires k !in BuncherAttrs && k !in targetAttrs
    requires b.obj.Some? && b.obj.value.Dict?
    ensures SetAttr(b, k, v).Ok?
    ensures var b' := SetAttr(b, k, v).value;
            GetAttr(b', k, targetAttrs) == Ok((Value(v), b'))
  {
  }

  /** A name deleted through the proxy is gone: reading it again is
      `AttributeError(k)` unless the wrapped mapping is a `defaultdict`. */
  lemma DelThenGet(b: Buncher, k: string, targetAttrs: set<string>)
    requires k !in BuncherAttrs && k !in targetAttrs
    requires b.obj.Some? && b.obj.value.Dict? && !Vivifies(b.obj.value.kind)
    requires k in Keys(b.obj.value.items)
    ensures DelAttr(b, k).Ok?
    ensures GetAttr(DelAttr(b, k).value, k, targetAttrs) == Err(AttributeError(k))
  {
  }

  /** Reserved names other than `obj` never reach the wrapped object: two
      proxies answer them alike whatever they wrap, and leave themselves
      unchanged. */
  lemma ReservedNotForwarded(b1: Buncher, b2: Buncher, k: string, t1: set<string>, t2: set<string>)
    requires k in BuncherAttrs && k != "obj"
    ensures GetAttr(b1, k, t1).Ok? <==> GetAttr(b2, k, t2).Ok?
    ensures GetAttr(b1, k, t1).Ok? ==>
      GetAttr(b1, k, t1).value.0 == GetAttr(b2, k, t2).value.0 && GetAttr(b1, k, t1).value.1 == b1
    ensures GetAttr(b1, k, t1).Err? ==> GetAttr(b1, k, t1).error == GetAttr(b2, k, t2).error
  {
  }

  /** A proxy around a `Bunch` reads non-reserved names as the `Bunch`
      itself does. */
  lemma ProxyOfBunch(o: Val, k: string, attrs: set<string>)
    requires AttrAccess.IsBunch(o) && k !in BuncherAttrs && k !in attrs
    ensures var g := AttrAccess.GetAttr(o, k, attrs);
            g.Ok? ==>
              && g.value.FromItem?
              && GetAttr(Buncher(Some(o)), k, attrs) ==
                 Ok((Value(g.value.value), Buncher(Some(g.value.after))))
    ensures var g := AttrAccess.GetAttr(o, k, attrs);
            g.Err? ==> GetAttr(Buncher(Some(o)), k, attrs) == Err(g.error)
  {
  }
}

=== FILE: scenarios.dfy ===
/** Worked instances of the behaviour of `BunchBunch` and `Buncher`, on
    small concrete values. */
module Scenarios {
  import opened Outcomes
  import opened Dicts
  import opened Dotted
  import opened DottedProps
  import Proxy
  import Copies

  function BB(s: Items): Val {
    Dict(BunchBunch, s)
  }

  /** `setdotted("a.b.c", 5)` on an empty `BunchBunch` nests three levels. */
  lemma ThreeLevels()
    ensures SetDotted([], "a.b.c", Atom(5)) == [("a", BB([("b", BB([("c", Atom(5))]))]))]
    ensures Find(SetDotted([], "a.b.c", Atom(5)), "a.b.c") == Some(Atom(5))
  {
    SplitJoin("a", "b.c");
    SplitJoin("b", "c");
    assert "a" + "." + "b.c" == "a.b.c";
    assert "b" + "." + "c" == "b.c";
    WriteThenFind([], "a.b.c", Atom(5));
  }

  /** A trailing dot stores the value under the empty key one level down. */
  lemma TrailingDot()
    ensures SetDotted([], "a.", Atom(1)) == [("a", BB([("", Atom(1))]))]
  {
    SplitJoin("a", "");
    assert "a" + "." + "" == "a.";
  }

  /** An atom at the head of a dotted key is discarded, not merged. */
  lemma AtomOverwritten()
    ensures SetDotted([("a", Atom(5))], "a.b", Atom(1)) == [("a", BB([("b", Atom(1))]))]
  {
    SplitJoin("a", "b");
    assert "a" + "." + "b" == "a.b";
  }

  /** `BunchBunch({"a.b": 1}, **{"a.c": 2})` keeps only `b`: the second write
      finds a `BunchBunch` under `a` and is dropped, where a merge into
      `{"a": {"b": 1, "c": 2}}` might be expected. */
  lemma SecondWriteUnderPrefixDropped()
    ensures Construct([("a.b", Atom(1))], [("a.c", Atom(2))]) == [("a", BB([("b", Atom(1))]))]
  {
    SplitJoin("a", "b");
    SplitJoin("a", "c");
    assert "a" + "." + "b" == "a.b";
    assert "a" + "." + "c" == "a.c";
  }

  /** A dict stored under a plain key is rebuilt, its own dotted keys
      re-interpreted as paths. */
  lemma DictValueRebuilt()
    ensures SetDotted([], "x", Dict(PlainDict, [("p.q", Atom(3))])) ==
            [("x", BB([("p", BB([("q", Atom(3))]))]))]
  {
    SplitJoin("p", "q");
    assert "p" + "." + "q" == "p.q";
    WrapIsConstruct(Dict(PlainDict, [("p.q", Atom(3))]));
  }

  /** `copy()` re-splits a key that holds a dot (one stored with `b[k] = v`,
      which bypasses `setdotted`), so the copy differs from the original. */
  lemma CopySplitsDottedKey()
    ensures Copy([("a.b", Atom(1))]) == [("a", BB([("b", Atom(1))]))]
  {
    SplitJoin("a", "b");
    assert "a" + "." + "b" == "a.b";
  }

  /** A proxy around `{"a": 1}`: `p.a` and `p["a"]` are 1, and `p.a = 2`
      changes the wrapped dict. */
  lemma ProxyOfDict(t: Val)
    requires t == Dict(PlainDict, [("a", Atom(1))])
    ensures Proxy.GetAttr(Proxy.Buncher(Some(t)), "a", {}) ==
            Ok((Proxy.Value(Atom(1)), Proxy.Buncher(Some(t))))
    ensures Proxy.GetItem(Proxy.Buncher(Some(t)), "a") == Ok((Atom(1), Proxy.Buncher(Some(t))))
    ensures Proxy.SetAttr(Proxy.Buncher(Some(t)), "a", Atom(2)) ==
            Ok(Proxy.Buncher(Some(Dict(PlainDict, [("a", Atom(2))]))))
  {
    assert "a" !in Proxy.BuncherAttrs;
    assert Get(t.items, "a") == Some(Atom(1));
    assert "a" != "obj";
    assert Put(t.items, "a", Atom(2)) == [("a", Atom(2))];
  }

  /** A flat `Bunch` inside a `BunchBunch` value is turned into a plain dict
      by `todict()`: the nested `BunchBunch` is converted in turn, and its
      `Bunch` value copied as a plain dict. */
  lemma NestedBunchConverted()
    ensures Copies.ToDict([("a", BB([("b", Dict(Bunch, []))]))]) ==
            [("a", Dict(PlainDict, [("b", Dict(PlainDict, []))]))]
  {
    var inner := [("b", Dict(Bunch, []))];
    var s := [("a", BB(inner))];
    var p := Copies.PlainValue(BB(inner));
    assert p.items[0].1 == Copies.PlainValue(Dict(Bunch, [])) == Dict(PlainDict, []);
    assert p == Dict(PlainDict, [("b", Dict(PlainDict, []))]);
    assert Copies.ToDict(s)[0] == ("a", p);
  }
}
